=== FILE: README.md ===
# TGM-Updater, modelled in Dafny

TGM-Updater lets a WordPress plugin that is not hosted on wordpress.org receive
update notices. It asks its own remote endpoint for newer versions, keeps a
per-slug update record in the site's options, and caches the endpoint's answer
for the host's update-list filter. It also answers the "plugin information"
screen. The repository holds three generations of the updater and a config
container:

- `updater/class-tgm-updater.php`: the updater configured through a config
  object. Modelled by `configured_updater.dfy`.
- `class-tgmupdater.php`: the older updater, which runs its check from the
  constructor. Modelled by `legacy_updater.dfy`.
- `class-tgm-updater.php`: the newest updater, which remembers responses in
  fields for the rest of the request. Modelled by `memo_updater.dfy`.
- `updater/class-tgm-updater-config.php`: `TGM_Updater_Config`, an array of
  settings with defaults behind PHP's `ArrayAccess`. Modelled by `config.dfy`.

The first two updaters share one state machine:

- the `$plugins` array of update records;
- the `$has_update` flag;
- the option store and the transient cache.

`updates.dfy` writes that machine as pure functions from one `World` to the
next, and the lemmas there state what it promises. Each updater is a `class`
whose fields the methods update in place, and each method is proved to take
the state exactly where the matching function says. `host.dfy` holds:

- the site (option store, transient store, and a log of the requests sent to
  the remote endpoint);
- the update record;
- the update list;
- the plugin-information object and how it is built from a response.

`php.dfy` holds the PHP and WordPress semantics the code relies on:

- string truthiness (`""` and `"0"` are falsy);
- `wp_parse_args`;
- `strpos`, whose result 0 is falsy.

`versions.dfy` holds a simplified `version_compare`.

The clock (`now`), the capability check (`canUpdate`) and the remote endpoint's
answer are inputs to each operation. The endpoint's answer is a `Reply`: a
decoded object, or `None` for `perform_remote_request`'s `false`.

## Model

| member | source | states |
|---|---|---|
| Php.ParseArgs | class-tgmupdater.php:352-356 | `wp_parse_args`: the result's keys are the caller's keys and the defaults' keys; a caller key keeps the caller's value; any other key takes the default |
| Php.StrPos | class-tgm-updater.php:188 | `strpos`: a found index is an occurrence with no earlier occurrence; `false` only when the needle occurs nowhere |
| Versions.Split | updater/class-tgm-updater.php:149 | a version string cut at '.' gives at least one part, and no part contains '.' |
| Versions.JoinSplit | updater/class-tgm-updater.php:149 | cutting a version at '.' loses nothing: joining the parts gives the string back |
| Versions.SplitJoin | updater/class-tgm-updater.php:149 | cutting a join of dot-free parts gives back exactly those parts |
| Versions.Compare | updater/class-tgm-updater.php:149 | the comparison answers -1, 0 or 1 |
| Versions.CompareAntisymmetric | updater/class-tgm-updater.php:149 | swapping the two versions negates the answer |
| Versions.CompareZero | updater/class-tgm-updater.php:149 | two versions compare equal exactly when their numeric parts are equal |
| Versions.CompareTransitive | updater/class-tgm-updater.php:149 | "older than" is transitive |
| Versions.NotAtLeastIsNewer | updater/class-tgm-updater.php:149 | `!version_compare(a, b, '>=')`, the test at this line and at line 149 of `class-tgmupdater.php`, holds exactly when `b` is newer than `a` |
| Versions.OlderIsStrictOrder | class-tgm-updater.php:166 | on version strings, the `'<'` test is irreflexive, asymmetric and transitive; it also repeats the `'>='` equivalence of `Versions.NotAtLeastIsNewer` |
| Versions.ExampleOrder | updater/class-tgm-updater.php:149 | "1.0.0" is older than "1.2.0", and "1.9" is older than "1.10" (parts compare as numbers, not text) |
| Host.ProjectFields | updater/class-tgm-updater.php:363-387 | each field of the built information object equals the response's field of that name, or '' when it is missing or the request failed; no other key is answered |
| Host.ProjectRoundTrip | updater/class-tgm-updater.php:363-387 | building the object from the complete response that describes an object gives back that object |
| Host.ProjectOfFailure | updater/class-tgm-updater.php:363-383 | after a failed request, every field of the built object is '' |
| Updates.Seeded | updater/class-tgm-updater.php:194-195 | after the seeding step the slug has a record; a known slug changes nothing; an unseen slug gets the default record, the whole array is saved under its option, and the other records, other options, the cache, the request log and both flags stay |
| Updates.CheckForUpdates | updater/class-tgm-updater.php:187-225 | after a check the slug always has a record; `has_update` and the filter registration are untouched |
| Updates.CheckPeriodicUpdates | updater/class-tgm-updater.php:163-177 | after a periodic run the slug always has a record; `has_update` and the filter registration are untouched |
| Updates.SeedOnFirstCheck | updater/class-tgm-updater.php:416-431 | an unseen slug is seeded with the installed version, package '', id '0' and timestamp now, and persisted; only a due check that gets a complete response changes it further |
| Updates.RequestOnlyWhenDue | updater/class-tgm-updater.php:200-223 | one update-check request is sent exactly when `now - last_update > time` or the check is manual; otherwise only the seeding step happens |
| Updates.CompleteResponseMerges | updater/class-tgm-updater.php:209-219 | a due check answered with `version` and `download_url` takes both and stamps the record with now, keeping its url, slug and id; no other record changes; the array is saved; exactly the `filter_` cache entry is deleted |
| Updates.IncompleteResponseKeepsRecord | updater/class-tgm-updater.php:205-223 | a failed request, or a response missing either field, leaves the record (timestamp included), the option store and the cache as the seeding step left them |
| Updates.FailedCheckStaysDue | updater/class-tgm-updater.php:209-223 | after a failed check the record is exactly as due at any later time as it was before |
| Updates.RefreshedNotDueAgain | updater/class-tgm-updater.php:200 | after a successful refresh, an automatic check within the interval changes nothing and sends nothing |
| Updates.FirstRunOnlySeeds | updater/class-tgm-updater.php:163-177 | on a first-ever run with a non-negative interval, the periodic check only seeds and sends no request |
| Updates.LastUpdateNeverDecreases | updater/class-tgm-updater.php:163-225 | neither a check nor a periodic run lowers the stored timestamp while the clock does not go back |
| Updates.UpdateDecision | updater/class-tgm-updater.php:142-155 | without the capability nothing changes; with it the periodic check runs, and the flag ends up set exactly when it was set already or the recorded version is newer than the installed one (so it is never cleared); the update-list filter is registered at the same time |
| Updates.FirstRunNoUpdate | updater/class-tgm-updater.php:142-155 | a first-ever run never reports an update, because the seed offers the installed version itself |
| Updates.ScenarioForcedCheckFindsUpdate | updater/class-tgm-updater.php:142-237 | installed 1.0.0: the first run reports nothing; a forced check answered with 1.2.0 is recorded; the next run reports the update with one request sent in all |
| Updates.FilterWritesRecord | updater/class-tgm-updater.php:249-279 | without a record or with a falsy plugin path the filter changes nothing; otherwise it writes the record under the plugin path, with `package` = the served `download_link` or '', touches no other path and leaves records and options alone |
| Updates.FilterCacheHit | updater/class-tgm-updater.php:262-263 | a live cache entry is served as is, a cached failure included: nothing is sent and the cache is not rewritten |
| Updates.FilterCacheMiss | updater/class-tgm-updater.php:262-270 | on a miss the package request is sent once and its answer is served; a `key_error` deletes the entry, and anything else, a failed request included, is cached until now + ttl |
| Updates.FilterCacheReuse | updater/class-tgm-updater.php:262-270 | once an answer (or a failure) is cached, later filter runs up to its expiry send nothing and serve it; the first run after the expiry fetches again |
| Updates.FailedFetchServedEmpty | updater/class-tgm-updater.php:262-274 | after a failed fetch the filter sends nothing more until the entry expires, and meanwhile writes the record with package '' |
| ConfiguredUpdater.Updater.constructor | updater/class-tgm-updater.php:111-133 | the settings are copied (time as the interval, time - 60 as the cache lifetime) and `$plugins` is loaded from the option store, or empty |
| ConfiguredUpdater.Updater.SavePluginOptions | updater/class-tgm-updater.php:438-446 | the option `tgm_plugins_<slug>` becomes the whole `$plugins` array; nothing else changes |
| ConfiguredUpdater.Updater.SetPluginOptions | updater/class-tgm-updater.php:416-431 | the slug's record becomes the default record and the array is saved |
| ConfiguredUpdater.Updater.CheckForUpdates | updater/class-tgm-updater.php:187-225 | the fields and the site end exactly as `Updates.CheckForUpdates` says; the returned record is the stored one |
| ConfiguredUpdater.Updater.CheckPeriodicUpdates | updater/class-tgm-updater.php:163-177 | the fields and the site end exactly as `Updates.CheckPeriodicUpdates` says |
| ConfiguredUpdater.Updater.UpdatePlugins | updater/class-tgm-updater.php:142-155 | the fields and the site end exactly as `Updates.UpdatePlugins` says |
| ConfiguredUpdater.Updater.ForceUpdateCheck | updater/class-tgm-updater.php:233-237 | a manual check: the state ends as `Updates.CheckForUpdates` with manual set says |
| ConfiguredUpdater.Updater.UpdatePluginsFilter | updater/class-tgm-updater.php:249-279 | the site and the returned update list are exactly those of `Updates.UpdatePluginsFilter` |
| ConfiguredUpdater.Updater.SetPluginsApi | updater/class-tgm-updater.php:363-387 | one 'get-plugin-info' request is sent, and the answer is the information object built from the reply with the four sections |
| ConfiguredUpdater.Updater.PluginsApi | updater/class-tgm-updater.php:292-302 | for 'plugin_information' on this slug, the answer is the built object and one request is sent; otherwise `$api` comes back untouched and nothing is sent |
| ConfiguredUpdater.Updater.HasUpdate | updater/class-tgm-updater.php:455-459 | reports the `has_update` flag of the state whose evolution `Updates.UpdateDecision` describes |
| LegacyUpdater.RequestBody | class-tgmupdater.php:349-356 | the POST body has the caller's keys plus `action`, `wp-version` and `referer`; caller values win and the defaults fill the rest |
| LegacyUpdater.RemoteResult | class-tgmupdater.php:377-384 | the result is `false` whenever the status is not 200, and otherwise the decoded body |
| LegacyUpdater.NonOkCheckOnlyLogs | class-tgmupdater.php:210-232 | an update check whose HTTP status is not 200 (so the answer is `false`) changes nothing beyond the seeding step except adding the request to the log when the check was due |
| LegacyUpdater.CheckRequestBody | class-tgmupdater.php:212 | the update check's POST body holds exactly `plugin` (the slug), `action` ('do-plugin-update-check'), `wp-version` and `referer` |
| LegacyUpdater.Updater.constructor | class-tgmupdater.php:111-156 | after loading `$plugins`, the state is exactly that of the shared `update_plugins` step: nothing for a user without the capability; otherwise the periodic check, then `has_update` raised when the recorded version is newer |
| LegacyUpdater.Updater.SavePluginOptions | class-tgmupdater.php:417-427 | the option `tgm_plugins_<slug>` becomes the whole `$plugins` array |
| LegacyUpdater.Updater.CheckForUpdates | class-tgmupdater.php:188-236 | the inline seeding and the age-gated check end exactly as `Updates.CheckForUpdates` says |
| LegacyUpdater.Updater.CheckPeriodicUpdates | class-tgmupdater.php:164-178 | the state ends exactly as `Updates.CheckPeriodicUpdates` says |
| LegacyUpdater.Updater.ForceUpdateCheck | class-tgmupdater.php:244-249 | always a manual check |
| LegacyUpdater.Updater.UpdatePluginsFilter | class-tgmupdater.php:261-291 | the site and the update list are exactly those of `Updates.UpdatePluginsFilter`, with the fixed cache lifetime |
| LegacyUpdater.Updater.PluginsApi | class-tgmupdater.php:304-336 | for 'plugin_information' on this slug, one request carrying the key and the slug is sent and the answer is the built object; otherwise `$api` comes back untouched and nothing is sent |
| LegacyUpdater.FixedTtlCache | class-tgmupdater.php:265-283 | an answer cached by the filter, a failure included, is stored until fetch time + 43140 and is served exactly up to then |
| MemoUpdater.SslBypassExplained | class-tgm-updater.php:185-194 | the URL test holds exactly when the URL contains "https://" and the update action, and does not start with the update action |
| MemoUpdater.HttpRequestArgs | class-tgm-updater.php:185-194 | `sslverify` is set to false when the URL test holds; every other argument is unchanged, and nothing changes when the test fails |
| MemoUpdater.Updater.constructor | class-tgm-updater.php:113-139 | the settings are copied, nothing is remembered, and the filters are registered exactly when the user may update plugins |
| MemoUpdater.Updater.UpdatePluginsFilter | class-tgm-updater.php:149-174 | an empty value comes back with no request; a request is sent only while no update is remembered; a failed or error answer is forgotten and the value comes back unchanged; otherwise the update goes under the plugin path exactly when it is newer than the installed version; a remembered response is never a failed or error answer |
| MemoUpdater.Updater.SetPluginsApi | class-tgm-updater.php:228-256 | the information is fetched only while none is remembered; a failed or error answer returns the default and remembers nothing; otherwise the answer is built from the remembered information; a remembered response is never a failed or error answer |
| MemoUpdater.Updater.PluginsApi | class-tgm-updater.php:207-218 | other requests get `$api` back with nothing sent; for 'plugin_information' on this slug, nothing remembered means one request whose good answer is remembered (a failed or error answer is not); something remembered means no request; the answer is the built object when information is remembered and `$api` otherwise; a remembered response is never a failed or error answer |
| Config.UpdaterConfig.constructor | updater/class-tgm-updater-config.php:29-54 | after construction every default key is present, the caller's values win, and any other default applies (`time` 43200, the rest false); the next free integer key is 0 |
| Config.UpdaterConfig.SanitizeArgs | updater/class-tgm-updater-config.php:41-54 | the container becomes the defaults merged under it, the container's values winning |
| Config.UpdaterConfig.OffsetSet | updater/class-tgm-updater-config.php:61-68 | a key stores the value, which reads back; an integer key at or past the next free one makes the next free key one past it, and any other key leaves it; no key appends under the next free key, which moves on by one; every other entry is unchanged |
| Config.UpdaterConfig.OffsetUnset | updater/class-tgm-updater-config.php:75-79 | the key is removed, reads as null and no longer exists; nothing else changes |
| Config.UpdaterConfig.OffsetExists | updater/class-tgm-updater-config.php:88-92 | `isset`: a key exists only when present, and a present key exists exactly when its value is not null |
| Config.UpdaterConfig.OffsetGet | updater/class-tgm-updater-config.php:88-105 | a non-null read is the stored value; an absent key reads as null; a key exists exactly when it reads non-null, so a stored null does not exist |

`Config.TestClassImplementsArrayAccess` and `Config.TestDefaultsAreSet` follow
the two cases of `tests/TGMUpdaterConfigTest.php` as proved client code.
`Config.AppendAfterConstruction` shows that the first `$config[] = $v` lands at
key 0 and that an explicit key 5 moves the next free key to 6.
`MemoUpdater.InformationFetchedOnce` shows that after a good first answer, a
second information lookup in the same request does not reach the endpoint.
`MemoUpdater.FailedInformationFetchedAgain` shows that after a failed or error
answer, the next lookup asks again.

## Left out

- HTTP transport and encoding (`wp_remote_post`, `http_build_query`, `json_decode`, `esc_url_raw`, the headers). The endpoint's decoded answer is an input, and a request is recorded as its action and body fields.
- WordPress hook registration. Only the update-list filter's registration is kept, as the `hooked` flag, where it depends on the logic. The `plugins_api` and `load-update-core.php` hooks that the constructors register unconditionally are not modelled.
- `current_user_can`, `get_bloginfo` and `site_url` are inputs.
- `is_multisite`: the site-wide and per-blog option and transient stores are one store. The filter's `set_site_transient` branch is the same as the `set_transient` branch.
- A transient's expiry is an integer deadline compared against `now`. WordPress treats a lifetime of exactly 0 as "never expires", and this model does not. A negative lifetime (the configured updater with `time` below 60) gives a deadline already past, as in WordPress.
- The singleton `get_instance` of `class-tgmupdater.php`: it is global plumbing.
- The configured updater's copy of settings out of the config object is a `Settings` value handed to the constructor.
- `LegacyUpdater.Updater.constructor` takes finished `Settings`. The source first merges its arguments over its own defaults with `wp_parse_args` (`time` 43200, `key` and the rest false), and that merge is not modelled.
- `Updates.UpdatePluginsFilter` writes a copy of the record with its `package` replaced. In the source this assignment also changes the in-memory record through PHP object aliasing. That aliasing is not modelled.
- `Versions.VersionCompare` is a simplified `version_compare`. It cuts at '.' only and reads the leading digits of each part. PHP's canonicalisation (`-`, `_`, `+`, letters) and its ordering of `dev`, `alpha`, `beta`, `RC` and `pl` are not modelled.
- `Updates.UpdatePlugins` tests the recorded `new_version` without the source's `isset` guard. A record always has a version here, and the source's null version is not modelled.
- A stored `last_update` of 0 is the only falsy timestamp in the model. The source's fallback to `time()` when `check_for_updates` returns no record cannot arise, because the record always exists after the call.
- `Updates.FilterCacheMiss` follows WordPress's default database-backed transients. There, the `false` the filter stores after a failed request reads back as `''`, so it is served as a hit with package `''` until it expires. With a persistent object cache, a stored `false` reads back as `false`, a miss, and the next run fetches again. That behaviour is not modelled.
- `Updates.UpdatePluginsFilter` and the two older variants' `UpdatePluginsFilter` methods take an update list that is always an object. WordPress can pass `false` when no update transient exists. Those variants have no `empty( $value )` guard, so PHP 5 and 7 turn `false` into a new object holding only this plugin's entry, with a warning, and PHP 8 throws an error. Neither outcome is modelled. The newest variant's guard is modelled.
- The `is_array( $this->plugins )` guard of `check_for_updates` never fails here: `$plugins` is always a map.
- One call sees one endpoint answer. When a periodic run sends two update-check requests, both get the same reply.
- `Config.UpdaterConfig.OffsetSet` appends after negative integer keys as PHP did before 8.3. After `$a[-5] = x`, `$a[] = y` puts `y` at 0. PHP 8.3 puts it at -4.
- `Config.UpdaterConfig.constructor` takes string-keyed settings. Integer keys in the constructor's array, PHP's canonicalisation of numeric-string keys (`"1"` as `1`), and `array_merge`'s renumbering of integer keys inside `wp_parse_args` are not modelled.
- `Config.UpdaterConfig.OffsetSet`, `Config.UpdaterConfig.OffsetGet`, `Config.UpdaterConfig.OffsetUnset` and `Config.UpdaterConfig.OffsetExists` keep `Name("5")` and `Index(5)` as two keys. In PHP, `$c["5"]` and `$c[5]` are the same slot, because a decimal integer string used as a key becomes that integer. That conversion is not modelled.
- PHP's loose `==` between the requested slug and ours is modelled as string equality.
- `MemoUpdater.Updater.UpdatePluginsFilter`: a remembered response counts as present exactly when it is `Some`. An empty decoded object is truthy in PHP, but an empty decoded array is not, and that case is not modelled.
- The newest variant's `plugin_url`, `remote_url`, `name` and `key` settings are copied and unused by the modelled logic. The `tgm-updater-key` field that its `perform_remote_request` adds to every request body belongs to the HTTP transport, which is left out; a request is recorded with the action and the caller's body fields only.

## Notes on the code

- A response missing `version` or `download_url` does not advance `last_update`, so the next page load checks again. The model follows the code (`Updates.IncompleteResponseKeepsRecord`, `Updates.FailedCheckStaysDue`).
- `perform_remote_request` returns `false`, never a `WP_Error`, so the `is_wp_error` tests in the check and the filter never fire. The failure path is the missing-field path.
- On a first-ever run the periodic check only seeds: the fresh record's age is 0 (`Updates.FirstRunOnlySeeds`).

=== FILE: config.dfy ===
/**
 * updater/class-tgm-updater-config.php: `TGM_Updater_Config`, an array with
 * defaults behind PHP's ArrayAccess interface. Keys are strings or integers;
 * `nextIndex` is the array's next free integer key, used by `$config[] = $v`.
 */
module Config {
  import opened Wrappers
  import Php

  /** A PHP array key. */
  datatype Key = Name(name: string) | Index(index: int)

  /** The defaults `sanitize_args` supplies: every setting false, `time` 12 hours. */
  const Defaults: map<Key, Php.Value> := map[
    Name("plugin_name") := Php.Bool(false), Name("plugin_slug") := Php.Bool(false),
    Name("plugin_path") := Php.Bool(false), Name("plugin_url") := Php.Bool(false),
    Name("version") := Php.Bool(false), Name("remote_url") := Php.Bool(false),
    Name("time") := Php.Int(43200)]

  /** The keys of a string-keyed array. */
  function NameKeys(m: map<string, Php.Value>): (r: set<Key>)
    ensures forall k :: k in r ==> k.Name? && k.name in m
  {
    set n | n in m :: Name(n)
  }

  /** A string-keyed array as an array with string keys. */
  function Named(m: map<string, Php.Value>): (r: map<Key, Php.Value>)
    ensures forall k :: k in r ==> k.Name?
    ensures forall n :: n in m ==> Name(n) in r && r[Name(n)] == m[n]
  {
    map k | k in NameKeys(m) :: m[k.name]
  }

  class UpdaterConfig {
    var container: map<Key, Php.Value>
    var nextIndex: int

    /** Every integer key lies below the next free one, so an append never overwrites. */
    ghost predicate Valid()
      reads this
    {
      0 <= nextIndex && forall k :: k in container && k.Index? ==> k.index < nextIndex
    }

    /** `isset( $this->container[$offset] )`: present and not null. */
    function OffsetExists(offset: Key): (r: bool)
      reads this
      ensures r ==> offset in container
      ensures offset in container && container[offset] == Php.Null ==> !r
      ensures offset in container && container[offset] != Php.Null ==> r
    {
      offset in container && container[offset] != Php.Null
    }

    /**
     * `isset(...) ? $this->container[$offset] : null`: a stored value when the
     * key exists, null for an absent key and for a key holding null alike.
     */
    function OffsetGet(offset: Key): (r: Php.Value)
      reads this
      ensures OffsetExists(offset) <==> r != Php.Null
      ensures r != Php.Null ==> offset in container && container[offset] == r
      ensures offset !in container ==> r == Php.Null
    {
      if OffsetExists(offset) then container[offset] else Php.Null
    }

    /** Stores the caller's settings and fills in the defaults. */
    constructor (args: map<string, Php.Value>)
      ensures Valid()
      ensures nextIndex == 0
      ensures container == Php.ParseArgs(Named(args), Defaults)
      ensures forall k :: k in Defaults ==> k in container
      ensures forall n :: n in args ==> OffsetGet(Name(n)) == args[n]
      ensures forall k :: k in Defaults && k.name !in args ==> OffsetGet(k) == Defaults[k]
    {
      container := Named(args);
      nextIndex := 0;
      new;
      SanitizeArgs();
    }

    /**
     * `sanitize_args`: the defaults merged under the container, the
     * container's values winning. It runs only from the constructor, on a
     * container holding string keys alone.
     */
    method SanitizeArgs()
      requires Valid() && forall k :: k in container ==> k.Name?
      modifies this`container
      ensures Valid()
      ensures container == Php.ParseArgs(old(container), Defaults)
    {
      container := Php.ParseArgs(container, Defaults);
    }

    /**
     * `offsetSet( $offset, $value )`: a key stores the value there; no key
     * (`$config[] = $value`) appends under the next free integer key, leaving
     * every existing entry alone. Integer keys at or past the next free one move it on.
     */
    method OffsetSet(offset: Option<Key>, value: Php.Value)
      requires Valid()
      modifies this
      ensures Valid()
      ensures offset.Some? ==> container == old(container)[offset.value := value] && OffsetGet(offset.value) == value
      ensures offset.Some? && offset.value.Index? && offset.value.index >= old(nextIndex) ==> nextIndex == offset.value.index + 1
      ensures offset.Some? && !(offset.value.Index? && offset.value.index >= old(nextIndex)) ==> nextIndex == old(nextIndex)
      ensures offset.None? ==>
        && Index(old(nextIndex)) !in old(container)
        && container == old(container)[Index(old(nextIndex)) := value]
        && nextIndex == old(nextIndex) + 1
      ensures forall k :: k in old(container) && Some(k) != offset ==> k in container && container[k] == old(container)[k]
    {
      if offset.None? {
        container := container[Index(nextIndex) := value];
        nextIndex := nextIndex + 1;
      } else {
        container := container[offset.value := value];
        if offset.value.Index? && offset.value.index >= nextIndex {
          nextIndex := offset.value.index + 1;
        }
      }
    }

    /** `offsetUnset( $offset )`: the key is gone; nothing else changes. */
    method OffsetUnset(offset: Key)
      requires Valid()
      modifies this`container
      ensures Valid()
      ensures container == old(container) - {offset}
      ensures !OffsetExists(offset) && OffsetGet(offset) == Php.Null
    {
      container := container - {offset};
    }
  }

  /** The first test case: set, read, check, unset, read again. */
  method TestClassImplementsArrayAccess()
  {
    var config := new UpdaterConfig(map[]);
    config.OffsetSet(Some(Name("foo")), Php.Str("bar"));
    assert config.OffsetGet(Name("foo")) == Php.Str("bar");
    assert config.OffsetExists(Name("foo"));
    config.OffsetUnset(Name("foo"));
    assert config.OffsetGet(Name("foo")) == Php.Null;
  }

  /** The second test case: a given setting, two defaults, then an overwrite. */
  method TestDefaultsAreSet()
  {
    var config := new UpdaterConfig(map["plugin_name" := Php.Str("FooBar")]);
    assert config.OffsetGet(Name("plugin_name")) == Php.Str("FooBar");
    assert Name("plugin_url") in Defaults;
    assert config.OffsetGet(Name("plugin_url")) == Php.Bool(false);
    assert Name("time") in Defaults;
    assert config.OffsetGet(Name("time")) == Php.Int(43200);
    config.OffsetSet(Some(Name("plugin_name")), Php.Str("Ultimate FooBar"));
    assert config.OffsetGet(Name("plugin_name")) == Php.Str("Ultimate FooBar");
  }

  /** `$config[] = $v` after construction lands at 0; an explicit key 5 moves the next free key to 6. */
  method AppendAfterConstruction()
  {
    var config := new UpdaterConfig(map["plugin_name" := Php.Str("FooBar")]);
    config.OffsetSet(None, Php.Str("first"));
    assert config.OffsetGet(Index(0)) == Php.Str("first");
    config.OffsetSet(Some(Index(5)), Php.Str("five"));
    assert config.nextIndex == 6;
  }
}

=== FILE: configured_updater.dfy ===
/**
 * updater/class-tgm-updater.php: the updater configured through a config
 * object. Its `$plugins` array and `$has_update` flag are fields; the option
 * store, the transient store and the remote endpoint live on the `Site`.
 */
module ConfiguredUpdater {
  import opened Wrappers
  import opened Host
  import Updates
  import Php

  /** Constants of this variant: requests carry the slug as 'tgm-updater-plugin'; cache entries live `time - 60` seconds. */
  function EnvOf(s: Updates.Settings): Updates.Env
  {
    Updates.Env(s.slug, s.url, s.version, s.path, s.time,
      Request("do-plugin-update-check", map["tgm-updater-plugin" := s.slug]),
      Request("get-plugin-package", map["tgm-updater-plugin" := s.slug]),
      s.time - 60)
  }

  class Updater {
    const env: Updates.Env
    const site: Site
    var plugins: map<string, Record>
    var hasUpdate: bool
    var hooked: bool

    /** The fields together with the site's stores. */
    function Snapshot(): Updates.World
      reads this, site
    {
      Updates.World(plugins, hasUpdate, hooked, site.options, site.transients, site.sent)
    }

    /** Copies the settings and loads the stored `$plugins` array. */
    constructor (settings: Updates.Settings, site: Site)
      ensures env == EnvOf(settings) && this.site == site
      ensures Snapshot() == Updates.Loaded(env, site.options, site.transients, site.sent)
    {
      env := EnvOf(settings);
      this.site := site;
      plugins := Updates.Load(site.options, settings.slug);
      hasUpdate, hooked := false, false;
    }

    /** `save_plugin_options` */
    method SavePluginOptions()
      modifies site
      ensures Snapshot() == Updates.Save(env, old(Snapshot()))
    {
      site.options := site.options[Updates.OptionName(env.slug) := plugins];
    }

    /** `set_plugin_options`: stores the default record for the slug and saves. */
    method SetPluginOptions(now: int)
      modifies this, site
      ensures Snapshot() == Updates.Save(env, old(Snapshot()).(plugins := old(plugins)[env.slug := Updates.Seed(env, now)]))
    {
      plugins := plugins[env.slug := Updates.Seed(env, now)];
      SavePluginOptions();
    }

    /** `check_for_updates( $manual )` */
    method CheckForUpdates(manual: bool, now: int, reply: Reply) returns (current: Record)
      modifies this, site
      ensures Snapshot() == Updates.CheckForUpdates(env, old(Snapshot()), manual, now, reply)
      ensures env.slug in plugins && current == plugins[env.slug]
    {
      if env.slug !in plugins {
        SetPluginOptions(now);
      }
      current := plugins[env.slug];
      if Updates.Due(env, current, manual, now) {
        site.sent := site.sent + [env.checkRequest];
        if Updates.Complete(reply) {
          site.transients := site.transients - {Updates.CacheKey(env.slug)};
          current := Updates.Merge(current, reply.value, now);
          plugins := plugins[env.slug := current];
          SavePluginOptions();
        }
      }
    }

    /** `check_periodic_updates` */
    method CheckPeriodicUpdates(now: int, reply: Reply)
      modifies this, site
      ensures Snapshot() == Updates.CheckPeriodicUpdates(env, old(Snapshot()), now, reply)
    {
      var lastUpdate := if env.slug in plugins then plugins[env.slug].lastUpdate else 0;
      if lastUpdate == 0 {
        var current := CheckForUpdates(false, now, reply);
        lastUpdate := current.lastUpdate;
      }
      if now - lastUpdate > env.interval {
        var ignored := CheckForUpdates(false, now, reply);
      }
    }

    /** `update_plugins`: gated on the `update_plugins` capability. */
    method UpdatePlugins(canUpdate: bool, now: int, reply: Reply)
      modifies this, site
      ensures Snapshot() == Updates.UpdatePlugins(env, old(Snapshot()), canUpdate, now, reply)
    {
      if !canUpdate {
        return;
      }
      CheckPeriodicUpdates(now, reply);
      if Updates.Offers(env.version, plugins[env.slug].newVersion) {
        hasUpdate := true;
        hooked := true;
      }
    }

    /** `force_update_check`: a check that ignores the age gate. */
    method ForceUpdateCheck(now: int, reply: Reply)
      modifies this, site
      ensures Snapshot() == Updates.CheckForUpdates(env, old(Snapshot()), true, now, reply)
    {
      var ignored := CheckForUpdates(true, now, reply);
    }

    /** `update_plugins_filter( $value )` */
    method UpdatePluginsFilter(value: UpdateList<Record>, now: int, reply: Reply) returns (r: UpdateList<Record>)
      modifies site
      ensures (Snapshot(), r) == Updates.UpdatePluginsFilter(env, old(Snapshot()), value, now, reply)
    {
      r := value;
      if env.slug in plugins && Php.Truthy(env.path) {
        var key := Updates.CacheKey(env.slug);
        var info: Reply;
        if key in site.transients && now <= site.transients[key].expiry {
          info := site.transients[key].resp;
        } else {
          site.sent := site.sent + [env.packageRequest];
          info := reply;
          if Updates.KeyError(reply) {
            site.transients := site.transients - {key};
          } else {
            site.transients := site.transients[key := Entry(reply, now + env.ttl)];
          }
        }
        r := r.(response := r.response[env.path := plugins[env.slug].(package := Field(info, "download_link"))]);
      }
    }

    /**
     * `set_plugins_api`: asks for the plugin information and builds the
     * answer from whatever comes back; a failed request yields an answer whose
     * every field is ''.
     */
    method SetPluginsApi(reply: Reply) returns (r: Api)
      modifies site`sent
      ensures site.sent == old(site.sent) + [Request("get-plugin-info", map["tgm-updater-plugin" := env.slug])]
      ensures r == Info(Project(reply, Sections))
    {
      site.sent := site.sent + [Request("get-plugin-info", map["tgm-updater-plugin" := env.slug])];
      r := Info(Project(reply, Sections));
    }

    /** `plugins_api( $api, $action, $args )`: answers only 'plugin_information' for our slug. */
    method PluginsApi(api: Api, action: string, argsSlug: Option<string>, reply: Reply) returns (r: Api)
      modifies site`sent
      ensures Handles(action, argsSlug, env.slug) ==>
        && r == Info(Project(reply, Sections))
        && site.sent == old(site.sent) + [Request("get-plugin-info", map["tgm-updater-plugin" := env.slug])]
      ensures !Handles(action, argsSlug, env.slug) ==> r == api && site.sent == old(site.sent)
    {
      if Handles(action, argsSlug, env.slug) {
        r := SetPluginsApi(reply);
      } else {
        r := api;
      }
    }

    /** `has_update` */
    function HasUpdate(): (r: bool)
      reads this, site
      ensures r == Snapshot().hasUpdate
    {
      hasUpdate
    }
  }
}

=== FILE: host.dfy ===
/**
 * The WordPress side of the updater: the shapes the three updater variants
 * exchange with the host (stored update records, the update list, the
 * plugin-information answer), the site's option and transient stores, and
 * the remote endpoint seen as a log of the requests sent to it.
 */
module Host {
  import opened Wrappers

  /** A decoded JSON object from the remote endpoint; a missing or null property is an absent key. */
  type Resp = map<string, string>

  /** What `perform_remote_request` returns: `None` is its `false` (status other than 200, or no body). */
  type Reply = Option<Resp>

  /** One POST to the remote endpoint: its action and the caller's body fields. */
  datatype Request = Request(action: string, body: map<string, string>)

  /** The per-slug update record kept in the `$plugins` array and persisted in the option store. */
  datatype Record = Record(url: string, slug: string, package: string, newVersion: string, lastUpdate: int, id: string)

  /**
   * A transient: the cached answer and the last second at which it is still
   * served. A failed request is cached too: the stored `false` comes back from
   * the database as '', which the filter serves like an answer with no fields.
   */
  datatype Entry = Entry(resp: Reply, expiry: int)

  /** The host's update-plugins object; only its `response` array (keyed by plugin path) is touched. */
  datatype UpdateList<T> = UpdateList(response: map<string, T>)

  /** The object built for the "plugin information" screen. */
  datatype PluginInfo = PluginInfo(
    name: string, slug: string, version: string, author: string, authorProfile: string,
    requiresWp: string, tested: string, lastUpdated: string, homepage: string,
    sections: map<string, string>, downloadLink: string)

  /**
   * The value travelling through the `plugins_api` filter: whatever the host or an
   * earlier filter passed in (never inspected), or an answer built by an updater.
   */
  datatype Api = HostValue(handle: nat) | Info(info: PluginInfo)

  /** The site's persistent options, its transients, and the requests sent to the remote endpoint. */
  class Site {
    var options: map<string, map<string, Record>>
    var transients: map<string, Entry>
    var sent: seq<Request>

    constructor (options: map<string, map<string, Record>>, transients: map<string, Entry>)
      ensures this.options == options && this.transients == transients && sent == []
    {
      this.options := options;
      this.transients := transients;
      sent := [];
    }
  }

  /** The sections the two older updaters copy into the information object. */
  const Sections: set<string> := {"description", "installation", "changelog", "FAQ"}

  /** The response keys copied to the top level of the information object. */
  const TopKeys: set<string> :=
    {"name", "slug", "version", "author", "author_profile", "requires", "tested",
     "last_updated", "homepage", "download_link"}

  /** `isset( $r->key ) ? $r->key : ''` */
  function Field(reply: Reply, key: string): string
  {
    if reply.Some? && key in reply.value then reply.value[key] else ""
  }

  /** The information object built from a response; `sections` names the response keys copied into `sections`. */
  function Project(reply: Reply, sections: set<string>): PluginInfo
  {
    PluginInfo(
      Field(reply, "name"), Field(reply, "slug"), Field(reply, "version"), Field(reply, "author"),
      Field(reply, "author_profile"), Field(reply, "requires"), Field(reply, "tested"),
      Field(reply, "last_updated"), Field(reply, "homepage"),
      map k | k in sections :: Field(reply, k),
      Field(reply, "download_link"))
  }

  /** Reads an information object back by response key: a reference definition independent of `Project`. */
  function FieldOf(info: PluginInfo, key: string): Option<string>
  {
    if key == "name" then Some(info.name)
    else if key == "slug" then Some(info.slug)
    else if key == "version" then Some(info.version)
    else if key == "author" then Some(info.author)
    else if key == "author_profile" then Some(info.authorProfile)
    else if key == "requires" then Some(info.requiresWp)
    else if key == "tested" then Some(info.tested)
    else if key == "last_updated" then Some(info.lastUpdated)
    else if key == "homepage" then Some(info.homepage)
    else if key == "download_link" then Some(info.downloadLink)
    else if key in info.sections then Some(info.sections[key])
    else None
  }

  /** The response an information object was built from, when every field was present. */
  function ToResponse(info: PluginInfo): Resp
  {
    info.sections + map[
      "name" := info.name, "slug" := info.slug, "version" := info.version, "author" := info.author,
      "author_profile" := info.authorProfile, "requires" := info.requiresWp, "tested" := info.tested,
      "last_updated" := info.lastUpdated, "homepage" := info.homepage, "download_link" := info.downloadLink]
  }

  /**
   * Every field of the built object equals the response's field of the same
   * name, or '' when the request failed or the field is missing; and no other
   * key is answered.
   */
  lemma ProjectFields(reply: Reply, sections: set<string>, key: string)
    requires sections !! TopKeys
    ensures key in TopKeys + sections ==> FieldOf(Project(reply, sections), key) == Some(Field(reply, key))
    ensures key !in TopKeys + sections ==> FieldOf(Project(reply, sections), key).None?
  {
  }

  /** Building the object from a complete response gives back the object that response describes. */
  lemma {:induction false} ProjectRoundTrip(info: PluginInfo)
    requires info.sections.Keys !! TopKeys
    ensures Project(Some(ToResponse(info)), info.sections.Keys) == info
  {
    var resp := ToResponse(info);
    var p := Project(Some(resp), info.sections.Keys);
    assert p.sections == info.sections by {
      forall k | k in info.sections ensures p.sections[k] == info.sections[k] {
        assert k !in TopKeys;
      }
    }
  }

  /** A failed request leaves every field of the built object ''. */
  lemma ProjectOfFailure(sections: set<string>, key: string)
    requires sections !! TopKeys
    requires key in TopKeys + sections
    ensures FieldOf(Project(None, sections), key) == Some("")
  {
    ProjectFields(None, sections, key);
  }

  /**
   * The `plugins_api` dispatch: the request is ours exactly when the action is
   * 'plugin_information' and the request names our slug.
   */
  predicate Handles(action: string, argsSlug: Option<string>, slug: string)
  {
    action == "plugin_information" && argsSlug == Some(slug)
  }
}

=== FILE: legacy_updater.dfy ===
/**
 * class-tgmupdater.php: the older updater. Its constructor runs the periodic
 * check for users who may update plugins; `check_for_updates` seeds a missing
 * record inline; the update-list filter caches for a fixed 43140 seconds; and
 * `plugins_api` builds its answer inline, sending the licence key.
 */
module LegacyUpdater {
  import opened Wrappers
  import opened Host
  import Updates
  import Php

  /** Fixed lifetime of the filter's cache entry: 11 hours 59 minutes. */
  const FilterTtl: int := 43140

  /** Constants of this variant: requests carry the slug as 'plugin'; the filter asks for 'get-plugin-info'. */
  function EnvOf(s: Updates.Settings): Updates.Env
  {
    Updates.Env(s.slug, s.url, s.version, s.path, s.time,
      Request("do-plugin-update-check", map["plugin" := s.slug]),
      Request("get-plugin-info", map["plugin" := s.slug]),
      FilterTtl)
  }

  /**
   * The POST body `perform_remote_request` sends: the caller's fields merged
   * over the defaults `action`, `wp-version` and `referer`, caller values winning.
   */
  function RequestBody(action: string, body: map<string, string>, wpVersion: string, referer: string): (r: map<string, string>)
    ensures r.Keys == body.Keys + {"action", "wp-version", "referer"}
    ensures forall k :: k in body ==> r[k] == body[k]
    ensures "action" !in body ==> r["action"] == action
    ensures "wp-version" !in body ==> r["wp-version"] == wpVersion
    ensures "referer" !in body ==> r["referer"] == referer
  {
    Php.ParseArgs(body, map["action" := action, "wp-version" := wpVersion, "referer" := referer])
  }

  /** What `perform_remote_request` returns for an HTTP status and a decoded body: `false` unless the status is 200. */
  function RemoteResult(status: int, decoded: Reply): (r: Reply)
    ensures status != 200 ==> r.None?
    ensures status == 200 ==> r == decoded
  {
    if status != 200 then None else decoded
  }

  class Updater {
    const env: Updates.Env
    const key: string
    const site: Site
    var plugins: map<string, Record>
    var hasUpdate: bool
    var hooked: bool

    function Snapshot(): Updates.World
      reads this, site
    {
      Updates.World(plugins, hasUpdate, hooked, site.options, site.transients, site.sent)
    }

    /**
     * Copies the settings, loads the stored array and, for a user who may
     * update plugins, runs the periodic check and raises `has_update` when the
     * recorded version is newer than the installed one.
     */
    constructor (settings: Updates.Settings, key: string, site: Site, canUpdate: bool, now: int, reply: Reply)
      modifies site
      ensures env == EnvOf(settings) && this.key == key && this.site == site
      ensures Snapshot() == Updates.UpdatePlugins(env,
        Updates.Loaded(env, old(site.options), old(site.transients), old(site.sent)), canUpdate, now, reply)
    {
      env := EnvOf(settings);
      this.key := key;
      this.site := site;
      plugins := Updates.Load(site.options, settings.slug);
      hasUpdate, hooked := false, false;
      new;
      if canUpdate {
        CheckPeriodicUpdates(now, reply);
        if Updates.Offers(env.version, plugins[env.slug].newVersion) {
          hasUpdate := true;
          hooked := true;
        }
      }
    }

    /** `save_plugin_options` */
    method SavePluginOptions()
      modifies site
      ensures Snapshot() == Updates.Save(env, old(Snapshot()))
    {
      site.options := site.options[Updates.OptionName(env.slug) := plugins];
    }

    /** `check_for_updates( $manual )`, with the default record created inline. */
    method CheckForUpdates(manual: bool, now: int, reply: Reply) returns (current: Record)
      modifies this, site
      ensures Snapshot() == Updates.CheckForUpdates(env, old(Snapshot()), manual, now, reply)
      ensures env.slug in plugins && current == plugins[env.slug]
    {
      if env.slug !in plugins {
        var options := Record(env.url, env.slug, "", env.version, now, "0");
        plugins := plugins[env.slug := options];
        SavePluginOptions();
      }
      current := plugins[env.slug];
      if now - current.lastUpdate > env.interval || manual {
        site.sent := site.sent + [env.checkRequest];
        if reply.Some? && "version" in reply.value && "download_url" in reply.value {
          site.transients := site.transients - {Updates.CacheKey(env.slug)};
          current := current.(newVersion := reply.value["version"], package := reply.value["download_url"], lastUpdate := now);
          plugins := plugins[env.slug := current];
          SavePluginOptions();
        }
      }
    }

    /** `check_periodic_updates` */
    method CheckPeriodicUpdates(now: int, reply: Reply)
      modifies this, site
      ensures Snapshot() == Updates.CheckPeriodicUpdates(env, old(Snapshot()), now, reply)
    {
      var lastUpdate := if env.slug in plugins then plugins[env.slug].lastUpdate else 0;
      if lastUpdate == 0 {
        var current := CheckForUpdates(false, now, reply);
        lastUpdate := current.lastUpdate;
      }
      if now - lastUpdate > env.interval {
        var ignored := CheckForUpdates(false, now, reply);
      }
    }

    /** `force_update_check`: always a manual check. */
    method ForceUpdateCheck(now: int, reply: Reply)
      modifies this, site
      ensures Snapshot() == Updates.CheckForUpdates(env, old(Snapshot()), true, now, reply)
    {
      var ignored := CheckForUpdates(true, now, reply);
    }

    /** `update_plugins_filter( $value )`; this variant's `env.ttl` is the fixed `FilterTtl`. */
    method UpdatePluginsFilter(value: UpdateList<Record>, now: int, reply: Reply) returns (r: UpdateList<Record>)
      modifies site
      ensures (Snapshot(), r) == Updates.UpdatePluginsFilter(env, old(Snapshot()), value, now, reply)
    {
      r := value;
      if env.slug in plugins && Php.Truthy(env.path) {
        var cacheKey := Updates.CacheKey(env.slug);
        var info: Reply;
        if cacheKey in site.transients && now <= site.transients[cacheKey].expiry {
          info := site.transients[cacheKey].resp;
        } else {
          site.sent := site.sent + [env.packageRequest];
          info := reply;
          if Updates.KeyError(reply) {
            site.transients := site.transients - {cacheKey};
          } else {
            site.transients := site.transients[cacheKey := Entry(reply, now + env.ttl)];
          }
        }
        r := r.(response := r.response[env.path := plugins[env.slug].(package := Field(info, "download_link"))]);
      }
    }

    /**
     * `plugins_api( $api, $action, $args )`: for 'plugin_information' on our
     * slug, asks for the information (sending the licence key) and answers
     * with it; any other request gets `$api` back untouched.
     */
    method PluginsApi(api: Api, action: string, argsSlug: Option<string>, reply: Reply) returns (r: Api)
      modifies site`sent
      ensures Handles(action, argsSlug, env.slug) ==>
        && r == Info(Project(reply, Sections))
        && site.sent == old(site.sent) + [Request("get-plugin-info", map["key" := key, "plugin" := env.slug])]
      ensures !Handles(action, argsSlug, env.slug) ==> r == api && site.sent == old(site.sent)
    {
      if !Handles(action, argsSlug, env.slug) {
        r := api;
      } else {
        site.sent := site.sent + [Request("get-plugin-info", map["key" := key, "plugin" := env.slug])];
        r := Info(Project(reply, Sections));
      }
    }
  }

  /** The fixed lifetime: an answer cached by the filter is served for 43140 seconds after it was fetched, not longer. */
  lemma FixedTtlCache(s: Updates.Settings, w: Updates.World, now: int, reply: Reply, later: int, reply2: Reply)
    requires !Updates.Alive(w.transients, Updates.CacheKey(s.slug), now)
    requires !Updates.KeyError(reply)
    ensures var w' := Updates.FilterCache(EnvOf(s), w, now, reply).0;
      && w'.transients[Updates.CacheKey(s.slug)] == Entry(reply, now + 43140)
      && (later <= now + 43140 <==> Updates.Alive(w'.transients, Updates.CacheKey(s.slug), later))
  {
  }

  /**
   * An update check whose HTTP status is not 200 sees `false`: beyond the
   * seeding step it leaves records, options and cache alone and only adds the
   * request to the log (when the check was due).
   */
  lemma NonOkCheckOnlyLogs(s: Updates.Settings, w: Updates.World, manual: bool, now: int, status: int, decoded: Reply)
    requires status != 200
    ensures var env := EnvOf(s);
      var w0 := Updates.Seeded(env, w, now);
      Updates.CheckForUpdates(env, w, manual, now, RemoteResult(status, decoded)) ==
        w0.(sent := w0.sent + (if Updates.Due(env, w0.plugins[env.slug], manual, now) then [env.checkRequest] else []))
  {
  }

  /** The POST body of the update check names the action and the plugin, and carries the site's version and URL. */
  lemma CheckRequestBody(s: Updates.Settings, wpVersion: string, referer: string)
    ensures var req := EnvOf(s).checkRequest;
      var body := RequestBody(req.action, req.body, wpVersion, referer);
      && body.Keys == {"plugin", "action", "wp-version", "referer"}
      && body["action"] == "do-plugin-update-check" && body["plugin"] == s.slug
      && body["wp-version"] == wpVersion && body["referer"] == referer
  {
  }
}

=== FILE: memo_updater.dfy ===
/**
 * class-tgm-updater.php: the newest updater. Nothing is registered for users
 * who cannot update plugins; the update and information responses are
 * remembered in the fields `$update` and `$info` for the rest of the request,
 * so each is fetched at most once after a good answer.
 */
module MemoUpdater {
  import opened Wrappers
  import opened Host
  import Php
  import Versions

  /** The properties this variant copies from its configuration array. */
  datatype Settings = Settings(name: string, slug: string, path: string, url: string, remoteUrl: string, version: string, key: string)

  /** The sections this variant copies into the information object. */
  const InfoSections: set<string> := {"changelog"}

  /** The request-argument value that disables certificate checks for our own update downloads. */
  const UpdateAction: string := "tgm-updater-action=get-plugin-update"

  /** `! $r || ! empty( $r->error )`: a failed request, or a response with a non-empty `error`. */
  predicate Bad(reply: Reply)
  {
    reply.None? || ("error" in reply.value && Php.Truthy(reply.value["error"]))
  }

  /** The remembered update offers a version newer than the installed one. */
  predicate Newer(installed: string, update: Resp)
  {
    "new_version" in update && Versions.VersionCompare(installed, update["new_version"]) < 0
  }

  /**
   * The URL test of `http_request_args`: it contains "https://", and the first
   * occurrence of the update action is at a non-zero position (`strpos`
   * returning 0 is falsy).
   */
  predicate SslBypass(url: string)
  {
    Php.Contains(url, "https://")
    && var p := Php.StrPos(url, UpdateAction); p.Some? && p.value != 0
  }

  /**
   * The URL test in terms of occurrences: the URL contains "https://" and the
   * update action, and does not start with the update action.
   */
  lemma SslBypassExplained(url: string)
    ensures SslBypass(url) <==>
      (exists i: nat :: Php.OccursAt(url, "https://", i))
      && (exists j: nat :: Php.OccursAt(url, UpdateAction, j))
      && !Php.OccursAt(url, UpdateAction, 0)
  {
    var p := Php.StrPos(url, UpdateAction);
    if p.Some? {
      assert Php.OccursAt(url, UpdateAction, p.value);
    }
    var q := Php.StrPos(url, "https://");
    if q.Some? {
      assert Php.OccursAt(url, "https://", q.value);
    }
  }

  /** `http_request_args( $args, $url )`: `sslverify` is set to false for our update downloads; other args are untouched. */
  function HttpRequestArgs(args: map<string, Php.Value>, url: string): (r: map<string, Php.Value>)
    ensures SslBypass(url) ==> "sslverify" in r && r["sslverify"] == Php.Bool(false)
    ensures r.Keys == args.Keys + (if SslBypass(url) then {"sslverify"} else {})
    ensures forall k :: k in args && (k != "sslverify" || !SslBypass(url)) ==> r[k] == args[k]
  {
    if SslBypass(url) then args["sslverify" := Php.Bool(false)] else args
  }

  class Updater {
    const slug: string
    const path: string
    const version: string
    const site: Site
    var update: Option<Resp>
    var info: Option<Resp>
    var hooked: bool      // the three filters have been registered

    /** A remembered response is never a failed or error response. */
    ghost predicate Valid()
      reads this
    {
      (update.Some? ==> !Bad(update)) && (info.Some? ==> !Bad(info))
    }

    /** Copies the settings; registers the filters only for a user who may update plugins. */
    constructor (settings: Settings, site: Site, canUpdate: bool)
      ensures Valid()
      ensures slug == settings.slug && path == settings.path && version == settings.version && this.site == site
      ensures update == None && info == None
      ensures hooked == canUpdate
    {
      slug, path, version := settings.slug, settings.path, settings.version;
      this.site := site;
      update, info := None, None;
      hooked := canUpdate;
    }

    /**
     * `update_plugins_filter( $value )`: an empty value is returned at once;
     * the update is fetched only while none is remembered; a failed or error
     * answer is forgotten and the value returned unchanged; otherwise the
     * update is written under the plugin path exactly when it is newer.
     */
    method UpdatePluginsFilter(value: Option<UpdateList<Resp>>, reply: Reply) returns (r: Option<UpdateList<Resp>>)
      requires Valid()
      modifies this`update, site`sent
      ensures Valid()
      ensures update.Some? ==> !Bad(update)
      ensures value.None? || old(update).Some? ==> update == old(update) && site.sent == old(site.sent)
      ensures value.Some? && old(update).None? ==>
        && site.sent == old(site.sent) + [Request("get-plugin-update", map["tgm-updater-plugin" := slug])]
        && update == (if Bad(reply) then None else reply)
      ensures value.None? || update.None? ==> r == value
      ensures value.Some? && update.Some? ==>
        r == Some(if Newer(version, update.value)
                  then value.value.(response := value.value.response[path := update.value])
                  else value.value)
    {
      if value.None? {
        return value;
      }
      if update.None? {
        site.sent := site.sent + [Request("get-plugin-update", map["tgm-updater-plugin" := slug])];
        update := reply;
        if Bad(update) {
          update := None;
          return value;
        }
      }
      r := value;
      if Newer(version, update.value) {
        r := Some(value.value.(response := value.value.response[path := update.value]));
      }
    }

    /**
     * `set_plugins_api( $default_api )`: the information is fetched only while
     * none is remembered; a failed or error answer gives back the default and
     * remembers nothing; otherwise each field is the response's or ''.
     */
    method SetPluginsApi(defaultApi: Api, reply: Reply) returns (r: Api)
      requires Valid()
      modifies this`info, site`sent
      ensures Valid()
      ensures info.Some? ==> !Bad(info)
      ensures old(info).Some? ==> info == old(info) && site.sent == old(site.sent)
      ensures old(info).None? ==>
        && site.sent == old(site.sent) + [Request("get-plugin-info", map["tgm-updater-plugin" := slug])]
        && info == (if Bad(reply) then None else reply)
      ensures info.None? ==> r == defaultApi
      ensures info.Some? ==> r == Info(Project(info, InfoSections))
    {
      if info.None? {
        site.sent := site.sent + [Request("get-plugin-info", map["tgm-updater-plugin" := slug])];
        info := reply;
        if Bad(info) {
          info := None;
          return defaultApi;
        }
      }
      r := Info(Project(info, InfoSections));
    }

    /** `plugins_api( $api, $action, $args )`: delegates only 'plugin_information' for our slug. */
    method PluginsApi(api: Api, action: string, argsSlug: Option<string>, reply: Reply) returns (r: Api)
      requires Valid()
      modifies this`info, site`sent
      ensures Valid()
      ensures info.Some? ==> !Bad(info)
      ensures !Handles(action, argsSlug, slug) ==> r == api && info == old(info) && site.sent == old(site.sent)
      ensures Handles(action, argsSlug, slug) ==>
        && (old(info).None? ==>
              && site.sent == old(site.sent) + [Request("get-plugin-info", map["tgm-updater-plugin" := slug])]
              && info == (if Bad(reply) then None else reply))
        && (old(info).Some? ==> info == old(info) && site.sent == old(site.sent))
        && (info.None? ==> r == api)
        && (info.Some? ==> r == Info(Project(info, InfoSections)))
    {
      if Handles(action, argsSlug, slug) {
        r := SetPluginsApi(api, reply);
      } else {
        r := api;
      }
    }
  }

  /** Two information lookups for our slug in one request after a good first answer: only the first reaches the endpoint. */
  method InformationFetchedOnce(settings: Settings, site: Site, api: Api, reply: Reply, reply2: Reply)
    requires !Bad(reply)
    modifies site
  {
    var updater := new Updater(settings, site, true);
    var before := site.sent;
    var first := updater.PluginsApi(api, "plugin_information", Some(settings.slug), reply);
    assert site.sent == before + [Request("get-plugin-info", map["tgm-updater-plugin" := settings.slug])];
    var after := site.sent;
    var second := updater.PluginsApi(api, "plugin_information", Some(settings.slug), reply2);
    assert site.sent == after;
    assert first == second == Info(Project(reply, InfoSections));
  }

  /** After a failed or error first answer nothing is remembered, so the next lookup asks again. */
  method FailedInformationFetchedAgain(settings: Settings, site: Site, api: Api, reply: Reply, reply2: Reply)
    requires Bad(reply)
    modifies site
  {
    var updater := new Updater(settings, site, true);
    var before := site.sent;
    var first := updater.PluginsApi(api, "plugin_information", Some(settings.slug), reply);
    assert first == api && updater.info == None;
    var second := updater.PluginsApi(api, "plugin_information", Some(settings.slug), reply2);
    assert |site.sent| == |before| + 2;
  }
}

=== FILE: php.dfy ===
/**
 * The few pieces of PHP and WordPress semantics the updater relies on:
 * loosely typed values, string truthiness, `wp_parse_args` and `strpos`.
 */
module Php {
  import opened Wrappers

  /** A PHP scalar as it can be held in an array slot. */
  datatype Value = Null | Bool(b: bool) | Int(i: int) | Str(s: string)

  /** A string is falsy in PHP exactly when it is empty or "0". */
  predicate Truthy(s: string)
  {
    s != "" && s != "0"
  }

  /**
   * `wp_parse_args($args, $defaults)` on two string-keyed arrays: every
   * default key is present, and a key the caller supplied keeps the caller's value.
   */
  function ParseArgs<K, V>(args: map<K, V>, defaults: map<K, V>): (r: map<K, V>)
    ensures r.Keys == args.Keys + defaults.Keys
    ensures forall k :: k in args ==> r[k] == args[k]
    ensures forall k :: k in defaults && k !in args ==> r[k] == defaults[k]
  {
    defaults + args
  }

  /** `needle` occurs in `hay` starting at index `i`. */
  predicate OccursAt(hay: string, needle: string, i: nat)
  {
    i + |needle| <= |hay| && hay[i..i + |needle|] == needle
  }

  /**
   * `strpos($hay, $needle)`: the index of the first occurrence, or `None` for `false`.
   * An empty needle is found at index 0, as in PHP 8.
   */
  function StrPos(hay: string, needle: string): (r: Option<nat>)
    ensures r.Some? ==> OccursAt(hay, needle, r.value)
    ensures r.Some? ==> forall j: nat :: j < r.value ==> !OccursAt(hay, needle, j)
    ensures r.None? ==> forall j: nat :: !OccursAt(hay, needle, j)
    decreases |hay|
  {
    if |needle| > |hay| then
      None
    else if hay[..|needle|] == needle then
      Some(0)
    else
      OccursShift(hay, needle);
      match StrPos(hay[1..], needle)
      case None => None
      case Some(i) => Some(i + 1)
  }

  /** An occurrence in `hay[1..]` is an occurrence in `hay` one place further on. */
  lemma OccursShift(hay: string, needle: string)
    requires |hay| > 0
    ensures forall j: nat :: 0 < j ==> (OccursAt(hay, needle, j) <==> OccursAt(hay[1..], needle, j - 1))
  {
    forall j: nat | 0 < j
      ensures OccursAt(hay, needle, j) <==> OccursAt(hay[1..], needle, j - 1)
    {
      if j + |needle| <= |hay| {
        assert hay[1..][j - 1..j - 1 + |needle|] == hay[j..j + |needle|];
      }
    }
  }

  /** `strpos($hay, $needle) !== false` */
  predicate Contains(hay: string, needle: string)
  {
    StrPos(hay, needle).Some?
  }
}

=== FILE: updates.dfy ===
/**
 * The update-check state machine shared by updater/class-tgm-updater.php and
 * its predecessor class-tgmupdater.php, written as functions from one state of
 * the updater and its site to the next. The two classes are proved against
 * these functions; the lemmas below state what the functions promise.
 */
module Updates {
  import opened Wrappers
  import opened Host
  import Php
  import Versions

  /** The properties an updater copies from its configuration. */
  datatype Settings = Settings(
    name: string, slug: string, path: string, url: string, version: string, remoteUrl: string, time: int)

  /** Per-instance constants: the settings plus the variant's requests and cache lifetime. */
  datatype Env = Env(
    slug: string, url: string, version: string, path: string,
    interval: int,              // seconds between periodic checks
    checkRequest: Request,      // the 'do-plugin-update-check' request
    packageRequest: Request,    // the request the update-list filter sends on a cache miss
    ttl: int)                   // lifetime given to the filter's cache entry

  /** The updater's fields together with the site it acts on. */
  datatype World = World(
    plugins: map<string, Record>,
    hasUpdate: bool,
    hooked: bool,                // the update-list filter has been registered
    options: map<string, map<string, Record>>,
    transients: map<string, Entry>,
    sent: seq<Request>)

  /** Option holding the `$plugins` array. */
  function OptionName(slug: string): string { "tgm_plugins_" + slug }

  /** Transient holding the update-list filter's cached response. */
  function CacheKey(slug: string): string { "tgm_plugins_filter_" + slug }

  /** `get_plugin_options`: the stored array, or an empty one when nothing (or an empty array) is stored. */
  function Load(options: map<string, map<string, Record>>, slug: string): map<string, Record>
  {
    if OptionName(slug) in options then options[OptionName(slug)] else map[]
  }

  /** The state right after construction. */
  function Loaded(env: Env, options: map<string, map<string, Record>>, transients: map<string, Entry>, sent: seq<Request>): World
  {
    World(Load(options, env.slug), false, false, options, transients, sent)
  }

  /** The default record created the first time a slug is seen. */
  function Seed(env: Env, now: int): Record
  {
    Record(env.url, env.slug, "", env.version, now, "0")
  }

  /** `save_plugin_options`: the whole `$plugins` array replaces the stored one. */
  function Save(env: Env, w: World): World
  {
    w.(options := w.options[OptionName(env.slug) := w.plugins])
  }

  /** The state after the "create the record if missing" step. */
  function Seeded(env: Env, w: World, now: int): (w': World)
    ensures env.slug in w'.plugins
    ensures env.slug in w.plugins ==> w' == w
    ensures env.slug !in w.plugins ==>
      && w'.plugins == w.plugins[env.slug := Seed(env, now)]
      && w'.options == w.options[OptionName(env.slug) := w'.plugins]
      && w'.transients == w.transients && w'.sent == w.sent
      && w'.hasUpdate == w.hasUpdate && w'.hooked == w.hooked
  {
    if env.slug in w.plugins then w
    else Save(env, w.(plugins := w.plugins[env.slug := Seed(env, now)]))
  }

  /** The age gate: a remote check is due when the record is older than the interval, or on demand. */
  predicate Due(env: Env, rec: Record, manual: bool, now: int)
  {
    now - rec.lastUpdate > env.interval || manual
  }

  /** The response carries both a version and a download URL. */
  predicate Complete(reply: Reply)
  {
    reply.Some? && "version" in reply.value && "download_url" in reply.value
  }

  /** The record after a complete response. */
  function Merge(rec: Record, resp: Resp, now: int): Record
    requires "version" in resp && "download_url" in resp
  {
    rec.(newVersion := resp["version"], package := resp["download_url"], lastUpdate := now)
  }

  /** `check_for_updates( $manual )`; the returned record is the result's `plugins[slug]`. */
  function CheckForUpdates(env: Env, w: World, manual: bool, now: int, reply: Reply): (w': World)
    ensures env.slug in w'.plugins
    ensures w'.hasUpdate == w.hasUpdate && w'.hooked == w.hooked
  {
    var w1 := Seeded(env, w, now);
    var current := w1.plugins[env.slug];
    if !Due(env, current, manual, now) then w1
    else
      var w2 := w1.(sent := w1.sent + [env.checkRequest]);
      if !Complete(reply) then w2
      else
        Save(env, w2.(transients := w2.transients - {CacheKey(env.slug)},
                      plugins := w2.plugins[env.slug := Merge(current, reply.value, now)]))
  }

  /** The stored `last_update`, or 0 (falsy, like the source's `false`) when there is no record. */
  function LastUpdate(env: Env, w: World): int
  {
    if env.slug in w.plugins then w.plugins[env.slug].lastUpdate else 0
  }

  /** `check_periodic_updates`: a check when no (or a zero) timestamp is stored, then the age gate. */
  function CheckPeriodicUpdates(env: Env, w: World, now: int, reply: Reply): (w': World)
    ensures env.slug in w'.plugins
    ensures w'.hasUpdate == w.hasUpdate && w'.hooked == w.hooked
  {
    var w1 := if LastUpdate(env, w) == 0 then CheckForUpdates(env, w, false, now, reply) else w;
    if now - LastUpdate(env, w1) > env.interval then CheckForUpdates(env, w1, false, now, reply) else w1
  }

  /** `! version_compare( $installed, $offered, '>=' )` */
  predicate Offers(installed: string, offered: string)
  {
    !(Versions.VersionCompare(installed, offered) >= 0)
  }

  /** `update_plugins` (and the legacy constructor's check block). */
  function UpdatePlugins(env: Env, w: World, canUpdate: bool, now: int, reply: Reply): World
  {
    if !canUpdate then w
    else
      var w1 := CheckPeriodicUpdates(env, w, now, reply);
      if Offers(env.version, w1.plugins[env.slug].newVersion) then w1.(hasUpdate := true, hooked := true) else w1
  }

  /** The endpoint refused the key: the only answer the filter does not cache. */
  predicate KeyError(reply: Reply)
  {
    reply.Some? && "key_error" in reply.value
  }

  /** A cached entry is served when present and not past its expiry. */
  predicate Alive(transients: map<string, Entry>, key: string, now: int)
  {
    key in transients && now <= transients[key].expiry
  }

  /** The filter's cache step: the served response and the new state. */
  function FilterCache(env: Env, w: World, now: int, reply: Reply): (World, Reply)
  {
    var key := CacheKey(env.slug);
    if Alive(w.transients, key, now) then (w, w.transients[key].resp)
    else
      var w1 := w.(sent := w.sent + [env.packageRequest]);
      if KeyError(reply) then (w1.(transients := w1.transients - {key}), reply)
      else (w1.(transients := w1.transients[key := Entry(reply, now + env.ttl)]), reply)
  }

  /** `update_plugins_filter( $value )` */
  function UpdatePluginsFilter(env: Env, w: World, value: UpdateList<Record>, now: int, reply: Reply): (World, UpdateList<Record>)
  {
    if !(env.slug in w.plugins && Php.Truthy(env.path)) then (w, value)
    else
      var (w1, info) := FilterCache(env, w, now, reply);
      var entry := w.plugins[env.slug].(package := Field(info, "download_link"));
      (w1, value.(response := value.response[env.path := entry]))
  }

  // ---------------------------------------------------------------------------
  // What the functions above promise.

  /**
   * A first check on an unseen slug creates the default record (installed
   * version, empty package, id '0', timestamp now) and persists it; only a
   * due, complete check changes it further.
   */
  lemma SeedOnFirstCheck(env: Env, w: World, manual: bool, now: int, reply: Reply)
    requires env.slug !in w.plugins
    ensures var w' := CheckForUpdates(env, w, manual, now, reply);
      && w'.plugins[env.slug] == (if Due(env, Seed(env, now), manual, now) && Complete(reply)
                                  then Merge(Seed(env, now), reply.value, now) else Seed(env, now))
      && w'.options[OptionName(env.slug)] == w'.plugins
  {
  }

  /** A remote check is sent exactly when it is due; otherwise only the seeding step happens. */
  lemma RequestOnlyWhenDue(env: Env, w: World, manual: bool, now: int, reply: Reply)
    ensures var w' := CheckForUpdates(env, w, manual, now, reply);
      var current := Seeded(env, w, now).plugins[env.slug];
      && w'.sent == w.sent + (if Due(env, current, manual, now) then [env.checkRequest] else [])
      && (!Due(env, current, manual, now) ==> w' == Seeded(env, w, now))
  {
  }

  /**
   * A due check answered with both fields takes the version and package,
   * stamps the record with now, saves it and drops the filter's cache entry.
   */
  lemma CompleteResponseMerges(env: Env, w: World, manual: bool, now: int, reply: Reply)
    requires Due(env, Seeded(env, w, now).plugins[env.slug], manual, now) && Complete(reply)
    ensures var w' := CheckForUpdates(env, w, manual, now, reply);
      var r := w'.plugins[env.slug];
      && r.newVersion == reply.value["version"] && r.package == reply.value["download_url"] && r.lastUpdate == now
      && r.url == Seeded(env, w, now).plugins[env.slug].url && r.id == Seeded(env, w, now).plugins[env.slug].id
      && r.slug == Seeded(env, w, now).plugins[env.slug].slug
      && r == Merge(Seeded(env, w, now).plugins[env.slug], reply.value, now)
      && w'.plugins == Seeded(env, w, now).plugins[env.slug := r]
      && w'.options[OptionName(env.slug)] == w'.plugins
      && w'.transients == w.transients - {CacheKey(env.slug)}
  {
  }

  /**
   * A failed request, or a response lacking `version` or `download_url`,
   * changes neither the record (its timestamp included), nor the stores.
   */
  lemma IncompleteResponseKeepsRecord(env: Env, w: World, manual: bool, now: int, reply: Reply)
    requires !Complete(reply)
    ensures var w' := CheckForUpdates(env, w, manual, now, reply);
      && w'.plugins == Seeded(env, w, now).plugins
      && w'.options == Seeded(env, w, now).options
      && w'.transients == w.transients
  {
  }

  /** ... so the next check, whatever its clock, is exactly as due as this one was. */
  lemma FailedCheckStaysDue(env: Env, w: World, now: int, reply: Reply, later: int)
    requires env.slug in w.plugins && !Complete(reply)
    ensures var w' := CheckForUpdates(env, w, false, now, reply);
      Due(env, w'.plugins[env.slug], false, later) == Due(env, w.plugins[env.slug], false, later)
  {
  }

  /** After a successful refresh, a further automatic check within the interval sends nothing. */
  lemma RefreshedNotDueAgain(env: Env, w: World, manual: bool, now: int, reply: Reply, later: int, reply2: Reply)
    requires Due(env, Seeded(env, w, now).plugins[env.slug], manual, now) && Complete(reply)
    requires later - now <= env.interval
    ensures var w' := CheckForUpdates(env, w, manual, now, reply);
      CheckForUpdates(env, w', false, later, reply2) == w'
  {
  }

  /**
   * On a first-ever run the periodic check only seeds: the fresh record's age
   * is 0, which is not above a non-negative interval, so nothing is sent.
   */
  lemma FirstRunOnlySeeds(env: Env, w: World, now: int, reply: Reply)
    requires env.slug !in w.plugins && env.interval >= 0
    ensures CheckPeriodicUpdates(env, w, now, reply) == Seeded(env, w, now)
  {
  }

  /**
   * The stored timestamp never moves backwards as long as the clock does
   * not: neither a periodic run nor a forced check can lower it.
   */
  lemma LastUpdateNeverDecreases(env: Env, w: World, manual: bool, now: int, reply: Reply)
    requires env.slug in w.plugins && w.plugins[env.slug].lastUpdate <= now
    ensures CheckForUpdates(env, w, manual, now, reply).plugins[env.slug].lastUpdate >= w.plugins[env.slug].lastUpdate
    ensures CheckPeriodicUpdates(env, w, now, reply).plugins[env.slug].lastUpdate >= w.plugins[env.slug].lastUpdate
  {
  }

  /**
   * `update_plugins` does nothing without the capability; with it, the flag
   * ends up set exactly when it already was or the installed version is older
   * than the recorded one, so it is never reset; the update-list filter is
   * registered when the flag is raised.
   */
  lemma UpdateDecision(env: Env, w: World, canUpdate: bool, now: int, reply: Reply)
    ensures !canUpdate ==> UpdatePlugins(env, w, canUpdate, now, reply) == w
    ensures canUpdate ==> var w' := UpdatePlugins(env, w, canUpdate, now, reply);
      && env.slug in w'.plugins
      && (w'.hasUpdate <==> w.hasUpdate || Versions.VersionCompare(w'.plugins[env.slug].newVersion, env.version) > 0)
      && (w'.hooked <==> w.hooked || Versions.VersionCompare(w'.plugins[env.slug].newVersion, env.version) > 0)
      && w'.plugins == CheckPeriodicUpdates(env, w, now, reply).plugins
  {
    if canUpdate {
      var w1 := CheckPeriodicUpdates(env, w, now, reply);
      Versions.OlderIsStrictOrder(env.version, w1.plugins[env.slug].newVersion, env.version);
    }
  }

  /** A first-ever run never reports an update: the seeded record offers the installed version itself. */
  lemma FirstRunNoUpdate(env: Env, w: World, now: int, reply: Reply)
    requires env.slug !in w.plugins && env.interval >= 0 && !w.hasUpdate
    ensures !UpdatePlugins(env, w, true, now, reply).hasUpdate
  {
    FirstRunOnlySeeds(env, w, now, reply);
    Versions.OlderIsStrictOrder(env.version, env.version, env.version);
  }

  /**
   * Installed "1.0.0" with no record: the first run seeds "1.0.0" and reports
   * nothing; a forced check answered with "1.2.0" and a package, followed by a
   * run within the interval, reports the update without another request.
   */
  lemma ScenarioForcedCheckFindsUpdate(env: Env, w: World, now: int, url: string)
    requires env.version == "1.0.0" && env.slug !in w.plugins && env.interval >= 0 && !w.hasUpdate
    ensures var w1 := UpdatePlugins(env, w, true, now, None);
      var w2 := CheckForUpdates(env, w1, true, now, Some(map["version" := "1.2.0", "download_url" := url]));
      var w3 := UpdatePlugins(env, w2, true, now, None);
      && !w1.hasUpdate && w1.plugins[env.slug].newVersion == "1.0.0"
      && w3.hasUpdate && w3.plugins[env.slug].newVersion == "1.2.0" && w3.plugins[env.slug].package == url
      && w3.sent == w.sent + [env.checkRequest]
  {
    FirstRunNoUpdate(env, w, now, None);
    FirstRunOnlySeeds(env, w, now, None);
    Versions.ExampleOrder();
  }

  /**
   * The filter leaves everything alone unless a record exists and the plugin
   * path is truthy; otherwise it writes the record, with `package` taken from
   * the served response's `download_link` (or ''), under the plugin path and
   * touches no other path.
   */
  lemma FilterWritesRecord(env: Env, w: World, value: UpdateList<Record>, now: int, reply: Reply)
    ensures !(env.slug in w.plugins && Php.Truthy(env.path)) ==> UpdatePluginsFilter(env, w, value, now, reply) == (w, value)
    ensures env.slug in w.plugins && Php.Truthy(env.path) ==>
      var (w', v') := UpdatePluginsFilter(env, w, value, now, reply);
      var served := FilterCache(env, w, now, reply).1;
      && v'.response.Keys == value.response.Keys + {env.path}
      && v'.response[env.path] == w.plugins[env.slug].(package := Field(served, "download_link"))
      && (forall p :: p in value.response && p != env.path ==> v'.response[p] == value.response[p])
      && w'.plugins == w.plugins && w'.options == w.options
  {
  }

  /** A live cache entry is served as is: nothing is sent and the cache is not rewritten. */
  lemma FilterCacheHit(env: Env, w: World, now: int, reply: Reply)
    requires Alive(w.transients, CacheKey(env.slug), now)
    ensures FilterCache(env, w, now, reply) == (w, w.transients[CacheKey(env.slug)].resp)
  {
  }

  /**
   * On a miss the package request is sent once; a `key_error` deletes the
   * entry, and anything else, a failed request included, is cached until `now + ttl`.
   */
  lemma FilterCacheMiss(env: Env, w: World, now: int, reply: Reply)
    requires !Alive(w.transients, CacheKey(env.slug), now)
    ensures var (w', served) := FilterCache(env, w, now, reply);
      && served == reply
      && w'.sent == w.sent + [env.packageRequest]
      && (KeyError(reply) ==> w'.transients == w.transients - {CacheKey(env.slug)})
      && (!KeyError(reply) ==> w'.transients == w.transients[CacheKey(env.slug) := Entry(reply, now + env.ttl)])
  {
  }

  /**
   * Once an answer is cached, later filter runs up to its expiry send nothing
   * and serve that answer; after the expiry the next run fetches again.
   */
  lemma FilterCacheReuse(env: Env, w: World, now: int, reply: Reply, later: int, reply2: Reply)
    requires !Alive(w.transients, CacheKey(env.slug), now)
    requires !KeyError(reply)
    ensures var w' := FilterCache(env, w, now, reply).0;
      && (later <= now + env.ttl ==> FilterCache(env, w', later, reply2) == (w', reply))
      && (later > now + env.ttl ==> FilterCache(env, w', later, reply2).0.sent == w'.sent + [env.packageRequest])
  {
  }

  /**
   * A failed fetch does not bring a retry on the next runs: until the entry
   * expires the filter sends nothing and writes the record with an empty package.
   */
  lemma FailedFetchServedEmpty(env: Env, w: World, value: UpdateList<Record>, now: int, later: int, reply2: Reply)
    requires env.slug in w.plugins && Php.Truthy(env.path)
    requires !Alive(w.transients, CacheKey(env.slug), now)
    requires later <= now + env.ttl
    ensures var (w1, _) := UpdatePluginsFilter(env, w, value, now, None);
      var (w2, v2) := UpdatePluginsFilter(env, w1, value, later, reply2);
      && w1.sent == w.sent + [env.packageRequest]
      && w2.sent == w1.sent
      && v2.response[env.path] == w.plugins[env.slug].(package := "")
  {
    FilterCacheReuse(env, w, now, None, later, reply2);
  }
}

=== FILE: versions.dfy ===
/**
 * A simplified `version_compare`: a version string is cut at every '.', each
 * part is read as the number its leading digits spell, and the resulting
 * sequences are compared part by part; when one sequence is a proper prefix of
 * the other, the shorter is the older version (as PHP does for "1.0" and "1.0.0").
 * PHP's canonicalisation and its ordering of "dev", "alpha", "RC", "pl" are not modelled.
 */
module Versions {

  /** `s` cut at every '.'; "1.2.0" gives ["1", "2", "0"]. */
  function Split(s: string): (parts: seq<string>)
    ensures |parts| >= 1
    ensures forall i :: 0 <= i < |parts| ==> '.' !in parts[i]
    decreases |s|
  {
    if s == [] then
      [""]
    else
      var rest := Split(s[1..]);
      if s[0] == '.' then [""] + rest else [[s[0]] + rest[0]] + rest[1..]
  }

  /** The parts glued back together with '.' between them. */
  function Join(parts: seq<string>): string
    requires |parts| >= 1
    decreases |parts|
  {
    if |parts| == 1 then parts[0] else parts[0] + "." + Join(parts[1..])
  }

  lemma {:induction false} JoinPrepend(c: char, parts: seq<string>)
    requires |parts| >= 1
    ensures Join([[c] + parts[0]] + parts[1..]) == [c] + Join(parts)
  {
    var q := [[c] + parts[0]] + parts[1..];
    assert q[1..] == parts[1..];
  }

  /** Cutting at '.' loses nothing: joining the parts gives the string back. */
  lemma {:induction false} JoinSplit(s: string)
    ensures Join(Split(s)) == s
    decreases |s|
  {
    if s != [] {
      var rest := Split(s[1..]);
      JoinSplit(s[1..]);
      if s[0] == '.' {
        assert ([""] + rest)[1..] == rest;
        assert s == "." + s[1..];
      } else {
        JoinPrepend(s[0], rest);
        assert s == [s[0]] + s[1..];
      }
    }
  }

  /** Splitting a join of dot-free parts gives the parts back. */
  lemma {:induction false} SplitJoin(parts: seq<string>)
    requires |parts| >= 1
    requires forall i :: 0 <= i < |parts| ==> '.' !in parts[i]
    ensures Split(Join(parts)) == parts
    decreases |parts|, |parts[0]|
  {
    if parts[0] != [] {
      var p0 := parts[0];
      var tail := [p0[1..]] + parts[1..];
      assert forall i :: 0 <= i < |tail| ==> '.' !in tail[i] by {
        forall i | 0 <= i < |tail| ensures '.' !in tail[i] {
          if i == 0 { assert forall ch :: ch in p0[1..] ==> ch in p0; } else { assert tail[i] == parts[i]; }
        }
      }
      SplitJoin(tail);
      JoinPrepend(p0[0], tail);
      assert [[p0[0]] + tail[0]] + tail[1..] == parts by {
        assert [p0[0]] + p0[1..] == p0;
        assert tail[1..] == parts[1..];
      }
      var j := Join(parts);
      assert j[0] == p0[0] && j[1..] == Join(tail);
      assert p0[0] != '.';
    } else if |parts| > 1 {
      SplitJoin(parts[1..]);
      var j := Join(parts);
      assert j == "." + Join(parts[1..]);
      assert j[1..] == Join(parts[1..]);
      assert [""] + parts[1..] == parts;
    }
  }

  /** The number spelled by the leading digits of `s`, read onto `acc` ("12abc" gives 12). */
  function LeadingNumber(s: string, acc: nat): nat
    decreases |s|
  {
    if s == [] || !('0' <= s[0] <= '9') then acc
    else LeadingNumber(s[1..], acc * 10 + (s[0] as int - '0' as int))
  }

  /** The numeric parts of a version string. */
  function Segments(v: string): (r: seq<nat>)
    ensures |r| == |Split(v)|
  {
    var parts := Split(v);
    seq(|parts|, i requires 0 <= i < |parts| => LeadingNumber(parts[i], 0))
  }

  /** -1, 0 or 1 as `a` is older than, the same as, or newer than `b`. */
  function Compare(a: seq<nat>, b: seq<nat>): (c: int)
    ensures -1 <= c <= 1
    decreases |a|
  {
    if a == [] && b == [] then 0
    else if a == [] then -1
    else if b == [] then 1
    else if a[0] < b[0] then -1
    else if a[0] > b[0] then 1
    else Compare(a[1..], b[1..])
  }

  /** `version_compare($a, $b)` with no operator. */
  function VersionCompare(a: string, b: string): int
  {
    Compare(Segments(a), Segments(b))
  }

  /** Swapping the arguments flips the answer. */
  lemma {:induction false} CompareAntisymmetric(a: seq<nat>, b: seq<nat>)
    ensures Compare(a, b) == -Compare(b, a)
    decreases |a|
  {
    if a != [] && b != [] && a[0] == b[0] {
      CompareAntisymmetric(a[1..], b[1..]);
    }
  }

  /** Two versions compare equal exactly when their parts are the same. */
  lemma {:induction false} CompareZero(a: seq<nat>, b: seq<nat>)
    ensures Compare(a, b) == 0 <==> a == b
    decreases |a|
  {
    if a != [] && b != [] && a[0] == b[0] {
      CompareZero(a[1..], b[1..]);
      assert a == [a[0]] + a[1..] && b == [b[0]] + b[1..];
    }
  }

  /** "Older than" is transitive. */
  lemma {:induction false} CompareTransitive(a: seq<nat>, b: seq<nat>, c: seq<nat>)
    requires Compare(a, b) < 0 && Compare(b, c) < 0
    ensures Compare(a, c) < 0
    decreases |a|
  {
    if a != [] && b != [] && c != [] && a[0] == b[0] && b[0] == c[0] {
      CompareTransitive(a[1..], b[1..], c[1..]);
    }
  }

  /** `! version_compare( $a, $b, '>=' )` holds exactly when `$b` is the newer version. */
  lemma NotAtLeastIsNewer(a: string, b: string)
    ensures !(VersionCompare(a, b) >= 0) <==> VersionCompare(b, a) > 0
  {
    CompareAntisymmetric(Segments(a), Segments(b));
  }

  /**
   * On version strings, "older than" is a strict order: never reflexive,
   * never both ways, transitive; and `!version_compare(a, b, '>=')` is the
   * same as `b` being newer than `a`.
   */
  lemma OlderIsStrictOrder(a: string, b: string, c: string)
    ensures !(VersionCompare(a, a) < 0)
    ensures VersionCompare(a, b) < 0 ==> !(VersionCompare(b, a) < 0)
    ensures VersionCompare(a, b) < 0 && VersionCompare(b, c) < 0 ==> VersionCompare(a, c) < 0
    ensures !(VersionCompare(a, b) >= 0) <==> VersionCompare(b, a) > 0
  {
    CompareZero(Segments(a), Segments(a));
    NotAtLeastIsNewer(a, b);
    if VersionCompare(a, b) < 0 && VersionCompare(b, c) < 0 {
      CompareTransitive(Segments(a), Segments(b), Segments(c));
    }
  }

  /** One step of `Split`, stated for a string given as its first character and the rest. */
  lemma SplitStep(c: char, s: string)
    ensures Split([c] + s) == if c == '.' then [""] + Split(s) else [[c] + Split(s)[0]] + Split(s)[1..]
  {
    assert ([c] + s)[1..] == s;
  }

  lemma SegmentsOfOneZeroZero()
    ensures Segments("1.0.0") == [1, 0, 0]
  {
    SplitStep('0', ""); SplitStep('.', "0"); SplitStep('0', ".0"); SplitStep('.', "0.0"); SplitStep('1', ".0.0");
    assert "1.0.0" == ['1'] + ".0.0" && ".0.0" == ['.'] + "0.0" && "0.0" == ['0'] + ".0";
    assert ".0" == ['.'] + "0" && "0" == ['0'] + "" && ['1'] + "" == "1";
    assert Split("0") == ["0"];
    assert Split(".0") == ["", "0"];
    assert Split("0.0") == ["0", "0"];
    assert Split(".0.0") == ["", "0", "0"];
    assert Split("1.0.0") == ["1", "0", "0"];
  }

  lemma SegmentsOfOneTwoZero()
    ensures Segments("1.2.0") == [1, 2, 0]
  {
    SplitStep('0', ""); SplitStep('.', "0"); SplitStep('2', ".0"); SplitStep('.', "2.0"); SplitStep('1', ".2.0");
    assert "1.2.0" == ['1'] + ".2.0" && ".2.0" == ['.'] + "2.0" && "2.0" == ['2'] + ".0";
    assert ".0" == ['.'] + "0" && "0" == ['0'] + "" && ['1'] + "" == "1" && ['2'] + "" == "2";
    assert Split("0") == ["0"];
    assert Split(".0") == ["", "0"];
    assert Split("2.0") == ["2", "0"];
    assert Split(".2.0") == ["", "2", "0"];
    assert Split("1.2.0") == ["1", "2", "0"];
  }

  lemma SegmentsOfOneNineAndOneTen()
    ensures Segments("1.9") == [1, 9] && Segments("1.10") == [1, 10]
  {
    SplitStep('9', ""); SplitStep('.', "9"); SplitStep('1', ".9");
    SplitStep('0', ""); SplitStep('1', "0"); SplitStep('.', "10"); SplitStep('1', ".10");
    assert "1.9" == ['1'] + ".9" && ".9" == ['.'] + "9" && "9" == ['9'] + "";
    assert "1.10" == ['1'] + ".10" && ".10" == ['.'] + "10" && "10" == ['1'] + "0" && ['1'] + "" == "1";
    assert "0" == ['0'] + "";
    assert Split("9") == ["9"];
    assert Split(".9") == ["", "9"];
    assert Split("1.9") == ["1", "9"];
    assert Split("0") == ["0"];
    assert Split("10") == ["10"];
    assert Split(".10") == ["", "10"];
    assert Split("1.10") == ["1", "10"];
    assert LeadingNumber("10", 0) == 10;
  }

  /** "1.0.0" is older than "1.2.0", and "1.9" older than "1.10" (parts compare as numbers). */
  lemma ExampleOrder()
    ensures VersionCompare("1.0.0", "1.2.0") == -1
    ensures VersionCompare("1.9", "1.10") == -1
  {
    SegmentsOfOneZeroZero();
    SegmentsOfOneTwoZero();
    SegmentsOfOneNineAndOneTen();
  }
}

=== FILE: wrappers.dfy ===
/** Optional values: `None` stands for PHP's `false`/`null` where the source uses them as "nothing". */
module Wrappers {

  datatype Option<+T> = None | Some(value: T)
}
